=== FILE: README.md ===
# FlowDeck voice-FX control plane, modelled in Dafny

FlowDeck is a two-machine control surface. A Raspberry Pi touch screen sends commands to a small
server on a Windows machine. That server changes system volumes and writes a shared voice-effect
parameter file (`fx_state.json`, holding `pitch`, `reverb` and `echo`). A separate voice-FX
processor reads that file on every audio block and sets up a fixed reverb → delay → pitch-shift chain.

This project models the parts of that system that decide something. All of it is pure functions
over immutable values:

- `Payload` (`payload.dfy`): request field values, and the Python conversions `float()`, `int()`
  (truncation toward zero), `bool()` and dictionary-key rendering that the handler applies to them.
- `FxStore` (`fx_store.dfy`): the parameter map. The state file is one of three things: missing,
  undecodable, or a stored map. It also holds the presets, mixer groups and configuration.
- `Snapshot` (`snapshot.dfy`): the state document returned by `/state`. Every key in it may be absent.
- `AudioControls` (`audio_controls.dfy`): `handle_command`, decoded and then dispatched as one
  transition of the state file. Any OS operation it forwards is recorded as an `Effect`. This module
  also has the nircmd microphone scaling, the first-match preset scan and `update_full_state`.
- `VoiceFx` (`voice_fx.dfy`): the per-block callback. It maps the parameters to the room size, the
  delay time, the echo gate and the semitone shift of the fixed chain.
- `FlowdeckServer` (`flowdeck_server.dfy`): the start-up seeding in `load_config`, the `/control`
  request gate and the `/state` query.
- `FlowDeckApp` (`pi_flowdeck_app.dfy`): the client's reducer for polled state, its config-name
  population, its command-payload builders and the swipe-to-exit rule.
- `EndToEnd` (`end_to_end.dfy`): what each client control does once the handler runs it, and how the
  client's displayed knobs relate to what the processor applies.

Some of this behaviour is not what such a system would be expected to do; the model follows the code:

- When the state file is missing or undecodable, the callback falls back to the defaults. It does
  not keep its last good values. Even the initial room size of 0.1 is dropped on the first such
  block (`VoiceFx.UnreadableStateResetsDefaults`).
- `set_voice_fx` does not check `fx_name` and does not clamp `value`. Any key and any number is
  written as given (`AudioControls.SetVoiceFxWritesOneKey` holds for every name and value).
- A preset without a `values` key never matches. Loading such a preset still truncates the state
  file, because the file is opened for writing before the values are looked up, so the store
  becomes undecodable. At start-up the same thing makes the server exit.
- The client's default for a missing `active_preset` is 0, not the server's "no match" value -1.

## Model

| member | source | states |
|---|---|---|
| `Payload.Truthy` | windows_files/audio_controls.py:79 | Python's `bool()` of a request field: false exactly for an absent field, `null`, `false`, `0` and `""` |
| `Payload.Trunc` | windows_files/audio_controls.py:58 | `int()` of a float truncates toward zero: the result is within one of the argument, on the zero side |
| `Payload.AsInt` | windows_files/audio_controls.py:81 | for the modelled scalars (numbers, booleans, null), `int()` succeeds exactly when `float()` would, and then equals the truncation of that float |
| `Payload.AsFloat` | windows_files/audio_controls.py:78 | `float()` succeeds exactly on numbers and booleans, giving the number itself, 1.0 for true and 0.0 for false; `None`/null raise |
| `Payload.AsKey` | windows_files/audio_controls.py:102 | the JSON key `fx_name` is written under: a string is itself, an absent name or null is `"null"`, and booleans are `"true"`/`"false"` |
| `Payload.IntRoundTrip` | windows_files/audio_controls.py:91 | an integer index sent as a JSON number comes back unchanged through `int()` |
| `Payload.TruncMonotone` | windows_files/audio_controls.py:58 | truncation toward zero is monotone |
| `AudioControls.Decode` | windows_files/audio_controls.py:76-105 | each action reads its own fields: levels and values through `float()` (the master level defaulting to 0), indices through `int()`, mute flags through truthiness, `fx_name` as its JSON key, and the media key and executable as given |
| `AudioControls.DecodeMatchesActionName` | windows_files/audio_controls.py:76-105 | a request is acted on if and only if its action is one of the ten fixed names, and then it is decoded as that action |
| `AudioControls.Dispatch` | windows_files/audio_controls.py:76-105 | only `set_voice_fx` and `load_voice_preset` change the store; those two never forward anything; an unrecognised command does nothing at all; a `set_voice_fx` whose name or value fails to convert, a `load_voice_preset` whose index fails to convert or is out of range, and a `set_master_volume` or `set_mic_volume` whose level fails to convert leave the file as it was and forward nothing |
| `AudioControls.HandleCommand` | windows_files/audio_controls.py:73-107 | the store changes only when the action is `set_voice_fx` or `load_voice_preset`; a request whose action is not a known name has no effect. A request missing a field it needs, or holding one that fails to convert, is dropped with no effect: the conversion raises before any write or forwarded call. This covers `fx_name`/`value` for `set_voice_fx`, the index for `load_voice_preset` (also when out of range), an explicit non-numeric `level` for `set_master_volume`, and `value` for `set_mic_volume` |
| `AudioControls.MicVolumeLevel` | windows_files/audio_controls.py:58 | the nircmd volume is `int(level * 65535)`: the largest integer not above the product for a non-negative level, the least not below it for a negative one; a level in [0, 1] gives a volume in [0, 65535] |
| `AudioControls.MicVolumeFullScale` | windows_files/audio_controls.py:55-58 | the scaling is monotone for all levels, and within [0, 1] it reaches 65535 exactly at level 1 |
| `AudioControls.SetVoiceFxWritesOneKey` | windows_files/audio_controls.py:96-103 | after `set_voice_fx(name, v)` the store holds `v` at `name`, every other key keeps its value, and no key is lost or added besides `name` |
| `AudioControls.SetVoiceFxFromScratch` | windows_files/audio_controls.py:98-102 | from a missing or undecodable file the result is exactly `{name: v}` |
| `AudioControls.LoadPresetReplaces` | windows_files/audio_controls.py:90-94 | an in-range preset index replaces the whole store by that preset's values, dropping earlier keys |
| `AudioControls.LoadPresetWithoutValuesTruncates` | windows_files/audio_controls.py:90-94 | loading an in-range preset that has no `values` leaves the state file truncated (undecodable) and forwards nothing |
| `AudioControls.LoadPresetOutOfRange` | windows_files/audio_controls.py:90-92 | an out-of-range index, negative ones included, leaves the store unchanged and forwards nothing |
| `AudioControls.GroupCommandsBoundsChecked` | windows_files/audio_controls.py:80-87 | group volume and mute are forwarded exactly when the index converts and lies in `[0, len(groups))` (and, for volume, the level converts), always to that group's apps; the store is untouched |
| `AudioControls.FirstMatchFrom` | windows_files/audio_controls.py:143-146 | the scan from a given index returns the first exactly equal preset at or after it, or -1 when none follows |
| `AudioControls.ActivePreset` | windows_files/audio_controls.py:141-146 | `active_preset` is the least index whose preset values equal the parameters, or -1 if there is none |
| `AudioControls.FirstMatchUnique` | windows_files/audio_controls.py:141-146 | the least-match-or-minus-one answer is unique |
| `AudioControls.ScanPresets` | windows_files/audio_controls.py:142-146 | the loop with `break` returns the least matching index or -1, and agrees with `ActivePreset` |
| `AudioControls.PerturbedStoreLosesMatch` | windows_files/audio_controls.py:144 | equality is exact: any change to the parameters stops the preset they matched from being reported |
| `AudioControls.LoadedPresetIsReported` | windows_files/audio_controls.py:141-146 | after loading preset `i` the reported preset is `i`, or an earlier preset with identical values |
| `AudioControls.SessionTable` | windows_files/audio_controls.py:117 | the table has exactly the process names of the listed sessions, each mapped to the last session with that name |
| `AudioControls.SessionTableStep` | windows_files/audio_controls.py:117 | appending one session to the list and updating the table with it gives the table of the longer list |
| `AudioControls.ListedStep` | windows_files/audio_controls.py:117 | a name is listed in a non-empty list exactly when it is listed before the last session or is the last session's |
| `AudioControls.LastSessionStep` | windows_files/audio_controls.py:117 | a later session for another process does not override the session a name already maps to |
| `AudioControls.ActiveSessionFrom` | windows_files/audio_controls.py:122 | from a given position, the session of the first app that has one, or none exactly when no later app has a session |
| `AudioControls.ActiveSession` | windows_files/audio_controls.py:122 | a group's session is that of its first listed app with a session; there is none exactly when none of its apps has one |
| `AudioControls.GroupSnapshot` | windows_files/audio_controls.py:121-129 | a group with no active session is reported as level -1 and unmuted; otherwise with the level and mute of the session of its first listed app that has one |
| `AudioControls.UpdateFullState` | windows_files/audio_controls.py:109-147 | writing into a document that lacks `audio`, `master` or `voice` stops early (the `KeyError` is swallowed) with the document as far as it got; otherwise the master levels are written, entry `i` of the groups is the snapshot of configured group `i`, and the mic state is written; if the file exists, `fx` becomes its contents; if it decodes or is missing, the active preset is the first match of the current `fx` (or of `{}`); an undecodable file leaves `fx` and `active_preset` as they were |
| `VoiceFx.DelaySeconds` | windows_files/voice_fx.py:41 | the delay time is half the `echo` parameter |
| `VoiceFx.EchoMix` | windows_files/voice_fx.py:42 | the mix is 1 exactly when echo exceeds 0.05, and 0 exactly otherwise |
| `VoiceFx.Semitones` | windows_files/voice_fx.py:43 | the semitone shift determines the pitch parameter: mapping it back gives `pitch` |
| `VoiceFx.ReadState` | windows_files/voice_fx.py:34-38 | a missing or undecodable file reads as the empty map |
| `VoiceFx.Callback` | windows_files/voice_fx.py:31-43 | the chain keeps its reverb, delay, pitch-shift order. Room size is `reverb` (default 0). The delay time is half of `echo` (default 0). The mix is 1 exactly when echo > 0.05 and 0 exactly otherwise. The semitone shift inverts to `pitch` (default 0.5) |
| `VoiceFx.PitchRoundTrip` | windows_files/voice_fx.py:43 | the semitone map and its inverse undo each other in both directions |
| `VoiceFx.PitchRange` | windows_files/voice_fx.py:43 | pitch 0, 0.5 and 1 give -12, 0 and +12; the map is monotone; pitch in [0, 1] stays within [-12, 12] |
| `VoiceFx.EchoGateStep` | windows_files/voice_fx.py:41-42 | the mix is only 0 or 1; echo 0.05 is dry and 0.0501 wet; the gate never switches off as echo grows; echo 0.2 gives 0.1 s |
| `VoiceFx.CallbackForgetsHistory` | windows_files/voice_fx.py:31-43 | two chains given the same file read end in the same settings: no earlier state is consulted |
| `VoiceFx.UnreadableStateResetsDefaults` | windows_files/voice_fx.py:20-43 | a missing or undecodable file gives room 0, no echo and a neutral pitch, whatever the chain held, so even the initial settings are not kept |
| `FlowdeckServer.LoadConfig` | windows_files/flowdeck_server.py:12-25 | with presets, the store becomes exactly preset 0's values, or the server exits with the file truncated; with no presets the file is left as it was; an unreadable configuration exits |
| `FlowdeckServer.Control` | windows_files/flowdeck_server.py:44-52 | a request is rejected with 400 exactly when the body is null or its `action` is absent or falsy; otherwise it succeeds and echoes `action` |
| `FlowdeckServer.ControlStep` | windows_files/flowdeck_server.py:44-52 | a rejected request dispatches nothing |
| `FlowdeckServer.AcknowledgementIndependentOfEffect` | windows_files/flowdeck_server.py:49-52 | the reply depends only on the request, never on the configuration or the store the command acts on |
| `FlowdeckServer.UnknownActionAcknowledged` | windows_files/flowdeck_server.py:46-52 | a non-empty unknown action is acknowledged as success yet changes nothing |
| `FlowdeckServer.GetState` | windows_files/flowdeck_server.py:28-35 | the reply fills the fixed skeleton: master levels, one entry per configured group, the mic state; a stored file's contents as `fx`, otherwise no `fx`; an undecodable store reports no `active_preset`, any other store the first match of its contents |
| `FlowdeckServer.StartupReportsFirstPreset` | windows_files/flowdeck_server.py:19-21 | right after a start-up that seeded the store, a state query reports preset 0 as active |
| `FlowDeckApp.MergedLevel` | pi_files/pi_flowdeck_app.py:128 | a group level becomes the incoming one whenever that is present and not the -1 sentinel, and otherwise stays the previous one |
| `FlowDeckApp.UpdateFromState` | pi_files/pi_flowdeck_app.py:122-141 | names and buttons are untouched and the view keeps its shape. With a group count different from the view's, levels and mutes stay. With an equal count, each level is the incoming one or (when it is absent or -1) the previous one, and each mute is true exactly when the incoming `muted` is true. Master level and mute, mic mute and active preset take the incoming value or default to 0, false, false and 0; the knobs are `pitch`, `reverb`, `mic_level` and `echo`, defaulting to 0.5, 0, 1.0 and 0 |
| `FlowDeckApp.EmptyStateGivesDefaults` | pi_files/pi_flowdeck_app.py:123-141 | a document with nothing in it gives master 0 and unmuted, mic unmuted, active preset 0 (not -1) and knobs `[0.5, 0, 1.0, 0]` |
| `FlowDeckApp.DefaultPresetName` | pi_files/pi_flowdeck_app.py:119 | an unnamed preset at position `i` is shown as `P` followed by the digit `i+1` |
| `FlowDeckApp.PopulateFromConfig` | pi_files/pi_flowdeck_app.py:117-120 | at most the first three group and preset names are kept, each defaulting (`N/A`, `P{i+1}`); the buttons are copied; no other field of the view changes |
| `FlowDeckApp.GroupCountMismatchFreezesGroups` | pi_files/pi_flowdeck_app.py:127 | if the server reports other than three groups, the client's group levels and mutes stay at their initial values |
| `FlowDeckApp.ListAt` | pi_files/pi_flowdeck_app.py:146 | reading the current group mute succeeds exactly for Python-valid indices, giving element `idx`, or element `len + idx` for a negative one |
| `FlowDeckApp.MasterLevelRequest` | pi_files/pi_flowdeck_app.py:143 | the master slider sends `set_master_volume` with exactly its value as `level` |
| `FlowDeckApp.MasterMuteRequest` | pi_files/pi_flowdeck_app.py:144 | the master mute button sends `set_master_mute` with the negation of the shown flag |
| `FlowDeckApp.GroupLevelRequest` | pi_files/pi_flowdeck_app.py:145 | a group slider sends `set_group_volume` with its position and value |
| `FlowDeckApp.GroupMuteRequest` | pi_files/pi_flowdeck_app.py:146 | a group mute button sends exactly `set_group_mute`, its position as given (negative included) and the negation of the flag Python's indexing reads; it sends nothing exactly when reading the flag would raise |
| `FlowDeckApp.MicMuteRequest` | pi_files/pi_flowdeck_app.py:147 | the mic mute button sends `set_mic_mute` with the negation of the shown flag |
| `FlowDeckApp.LoadPresetRequest` | pi_files/pi_flowdeck_app.py:148 | a preset button sends `load_voice_preset` with its position |
| `FlowDeckApp.MediaRequest` | pi_files/pi_flowdeck_app.py:157 | a media button sends `media_control` with its key name |
| `FlowDeckApp.DeckActionRequest` | pi_files/pi_flowdeck_app.py:158 | a deck button sends `run_stream_deck_action` with its executable |
| `FlowDeckApp.FxRequest` | pi_files/pi_flowdeck_app.py:150-155 | the name `mic_volume` yields a `set_mic_volume` payload; any other name yields `set_voice_fx` carrying that name and value; neither payload has any other key |
| `FlowDeckApp.StopsApp` | pi_files/pi_flowdeck_app.py:72-77 | the app stops exactly when a touch began (y recorded) below 60 and ended more than 150 above its start |
| `FlowDeckApp.SwipeRule` | pi_files/pi_flowdeck_app.py:72-77 | the app stops only for a touch that began below y = 60 and rose by more than 150; continuing such a swipe further still stops it |
| `EndToEnd.FxControlRoundTrip` | pi_files/pi_flowdeck_app.py:150-155 | every knob is acknowledged. The mic knob only forwards the nircmd volume. Any other knob's value lands in the store under that knob's name, and nothing else changes |
| `EndToEnd.MuteTogglesNegate` | pi_files/pi_flowdeck_app.py:144-147 | master and mic mute buttons forward the negation of the flag currently shown |
| `EndToEnd.GroupMuteToggle` | pi_files/pi_flowdeck_app.py:146 | a group mute button forwards the negation of that group's shown flag to that group's apps |
| `EndToEnd.GroupLevelRoundTrip` | pi_files/pi_flowdeck_app.py:145 | a group slider reaches the configured group's apps with its level, and does nothing for an unconfigured index |
| `EndToEnd.PresetButtonRoundTrip` | pi_files/pi_flowdeck_app.py:148 | a preset button replaces the store by that preset's values, or is ignored when the index is out of range |
| `EndToEnd.ForwardedControls` | pi_files/pi_flowdeck_app.py:143-158 | the master slider, media keys and deck buttons are forwarded with their arguments unchanged |
| `EndToEnd.KnobsMatchProcessor` | pi_files/pi_flowdeck_app.py:135-141 | for every state file, the client's pitch, reverb and echo knobs map to exactly the semitones, room size, delay and mix the processor applies, because both sides use the same defaults |
| `EndToEnd.ClientActivePreset` | pi_files/pi_flowdeck_app.py:133 | the client shows the server's first match (or -1), but shows 0 when an undecodable store left `active_preset` out |
| `EndToEnd.SilentGroupKeepsLevel` | pi_files/pi_flowdeck_app.py:127-129 | a configured group with no playing session keeps its previous displayed level and is shown unmuted |

## Left out

- Concurrency: the `FX_STATE_LOCK`, the thread per command, the client's polling and sending threads and the processor's unlocked read are not modelled. Each command is one atomic transition of the state file.
- File and JSON I/O: `fx_state.json` and `config.json` are values (`FxFile`, `Config`). Parameters are Dafny `real`s, so float rounding, including through a JSON round trip, is not modelled. A state file holding anything other than an object of numbers is not modelled.
- OS audio primitives (pycaw/COM, nircmd, `pyautogui`, `os.startfile`) are outside the model. They appear only as the forwarded `Effect`, and their swallowed failures have no observable effect. In `update_full_state` only the state-file read may fail; a failing COM query, which would leave a partly filled document, is not modelled.
- The audio stream, the DSP of the effect chain and a fatal device failure are not modelled. These are a foreign library and floating-point signal processing. Only the unit settings are modelled.
- Kivy widgets, layout, `Window` and `Clock` scheduling are not modelled. Neither are the Flask routing and HTTP transport, nor the `/config` endpoint, which returns the configuration verbatim.
- windows_files/find_audio_devices.py is not part of this model: it only queries and prints devices.
- `Payload.AsInt`: a numeric string such as `"3"` converts in Python (and `"0.5"` raises), but is treated here as a failed conversion. The client never sends strings for indices.
- `Payload.AsFloat`: a numeric string such as `"0.5"` converts in Python but is treated here as a failed conversion. The client never sends strings for numbers.
- `Payload.AsKey`: a numeric `fx_name` would be written under its JSON number text. The model cannot render reals as text, so such a request is treated as writing nothing.
- Request bodies that are JSON arrays or other non-objects are not modelled; `request.get_json().get` would raise on them.
- Request fields holding arrays or objects are not modelled. In the source, `float()` and `int()` raise on them, and so does their use as the `fx_name` dictionary key, so such commands have no effect. `bool()` reads them by emptiness, so a non-empty list as `is_muted` mutes. A non-empty one as `action` passes the gate, is acknowledged and is then ignored. As `key` or `executable` it is forwarded unchanged.
- Presets whose `values` is JSON `null` are not modelled: `Preset.values` is either absent or a map. In the source such a preset is written as `null` at start-up or on loading, so the file still decodes, and it matches an absent or null `fx`.
- Mixer groups are assumed to carry an `apps` list. A group without one would make both the handler and `update_full_state` raise.
- Console output (`print`) and the interactive `input()` on fatal errors are not modelled. `load_config`'s `exit()` is the `Exited` start-up state.

=== FILE: audio_controls.dfy ===
/**
 * The Windows-side command handler (`handle_command`), the microphone-volume
 * scaling it forwards, the preset matcher and the state-snapshot assembly
 * (`update_full_state`).
 */
module AudioControls {
  import opened Wrappers
  import opened Payload
  import opened FxStore
  import Snapshot

  /** The operations the handler forwards to the operating system's audio surface, with their arguments. */
  datatype Effect =
    | MasterVolume(level: real)
    | MasterMute(muted: bool)
    | GroupVolume(apps: seq<string>, level: real)
    | GroupMute(apps: seq<string>, muted: bool)
    | MicMute(muted: bool)
    | MicVolume(nircmdLevel: int)
    | MediaKey(key: Option<Value>)
    | Launch(executable: Option<Value>)

  /**
   * A request body after the handler's conversions: `None` in a field means
   * the conversion raised (the handler's thread then ends with no effect).
   */
  datatype Command =
    | SetMasterVolume(level: Option<real>)
    | SetMasterMute(muted: bool)
    | SetGroupVolume(groupIndex: Option<int>, level: Option<real>)
    | SetGroupMute(groupIndex: Option<int>, muted: bool)
    | SetMicMute(muted: bool)
    | SetMicVolume(value: Option<real>)
    | LoadVoicePreset(presetIndex: Option<int>)
    | SetVoiceFx(fxName: Option<string>, value: Option<real>)
    | MediaControl(key: Option<Value>)
    | RunStreamDeckAction(executable: Option<Value>)
    | Ignored

  /** What one command leaves behind: the state file and at most one forwarded operation. */
  datatype Outcome = Outcome(store: FxFile, forwarded: Option<Effect>)

  /** The fixed action vocabulary. */
  const Actions: seq<string> := [
    "set_master_volume", "set_master_mute", "set_group_volume", "set_group_mute",
    "set_mic_mute", "set_mic_volume", "load_voice_preset", "set_voice_fx",
    "media_control", "run_stream_deck_action"]

  /** The action name a recognised command was decoded from. */
  function ActionName(c: Command): string
    requires !c.Ignored?
  {
    match c
    case SetMasterVolume(_) => "set_master_volume"
    case SetMasterMute(_) => "set_master_mute"
    case SetGroupVolume(_, _) => "set_group_volume"
    case SetGroupMute(_, _) => "set_group_mute"
    case SetMicMute(_) => "set_mic_mute"
    case SetMicVolume(_) => "set_mic_volume"
    case LoadVoicePreset(_) => "load_voice_preset"
    case SetVoiceFx(_, _) => "set_voice_fx"
    case MediaControl(_) => "media_control"
    case RunStreamDeckAction(_) => "run_stream_deck_action"
  }

  /** Reads the fields each action uses, applying the handler's `float`/`int`/`bool` conversions. */
  function Decode(p: Fields): (c: Command)
    ensures c.SetMasterVolume? ==> c.level == if "level" in p then AsFloat(Some(p["level"])) else Some(0.0)
    ensures c.SetMasterMute? || c.SetMicMute? ==> c.muted == Truthy(Get(p, "is_muted"))
    ensures c.SetGroupVolume? ==> c.groupIndex == AsInt(Get(p, "group_index")) && c.level == AsFloat(Get(p, "level"))
    ensures c.SetGroupMute? ==> c.groupIndex == AsInt(Get(p, "group_index")) && c.muted == Truthy(Get(p, "is_muted"))
    ensures c.SetMicVolume? ==> c.value == AsFloat(Get(p, "value"))
    ensures c.LoadVoicePreset? ==> c.presetIndex == AsInt(Get(p, "preset_index"))
    ensures c.SetVoiceFx? ==> c.fxName == AsKey(Get(p, "fx_name")) && c.value == AsFloat(Get(p, "value"))
    ensures c.MediaControl? ==> c.key == Get(p, "key")
    ensures c.RunStreamDeckAction? ==> c.executable == Get(p, "executable")
  {
    match Get(p, "action")
    case Some(Str(a)) =>
      if a == "set_master_volume" then SetMasterVolume(AsFloat(Some(Get(p, "level").GetOr(Num(0.0)))))
      else if a == "set_master_mute" then SetMasterMute(Truthy(Get(p, "is_muted")))
      else if a == "set_group_volume" then SetGroupVolume(AsInt(Get(p, "group_index")), AsFloat(Get(p, "level")))
      else if a == "set_group_mute" then SetGroupMute(AsInt(Get(p, "group_index")), Truthy(Get(p, "is_muted")))
      else if a == "set_mic_mute" then SetMicMute(Truthy(Get(p, "is_muted")))
      else if a == "set_mic_volume" then SetMicVolume(AsFloat(Get(p, "value")))
      else if a == "load_voice_preset" then LoadVoicePreset(AsInt(Get(p, "preset_index")))
      else if a == "set_voice_fx" then SetVoiceFx(AsKey(Get(p, "fx_name")), AsFloat(Get(p, "value")))
      else if a == "media_control" then MediaControl(Get(p, "key"))
      else if a == "run_stream_deck_action" then RunStreamDeckAction(Get(p, "executable"))
      else Ignored
    case _ => Ignored
  }

  /** A request is recognised exactly when its action is one of the fixed names, and it decodes to that action. */
  lemma DecodeMatchesActionName(p: Fields)
    ensures !Decode(p).Ignored? <==> (exists a :: Get(p, "action") == Some(Str(a)) && a in Actions)
    ensures !Decode(p).Ignored? ==> Get(p, "action") == Some(Str(ActionName(Decode(p))))
  {
    if !Decode(p).Ignored? {
      var a := Get(p, "action").value.s;
      assert a in Actions;
    }
  }

  /** `set_mic_volume`: nircmd's 0..65535 scale, `int(level * 65535)`. */
  function MicVolumeLevel(level: real): (r: int)
    ensures 0.0 <= level ==> r as real <= level * 65535.0 < r as real + 1.0
    ensures level < 0.0 ==> r as real - 1.0 < level * 65535.0 <= r as real
    ensures 0.0 <= level <= 1.0 ==> 0 <= r <= 65535
  {
    Trunc(level * 65535.0)
  }

  /** Full scale is reached only by level 1, and louder levels never give a smaller setting. */
  lemma MicVolumeFullScale(level: real, louder: real)
    requires level <= louder
    ensures MicVolumeLevel(level) <= MicVolumeLevel(louder)
    ensures level <= 1.0 ==> (MicVolumeLevel(level) == 65535 <==> level == 1.0)
  {
    TruncMonotone(level * 65535.0, louder * 65535.0);
    if 0.0 <= level < 1.0 {
      assert level * 65535.0 < 65535.0;
      assert MicVolumeLevel(level) as real <= level * 65535.0;
    }
  }

  function Forward(f: FxFile, e: Effect): Outcome
  {
    Outcome(f, Some(e))
  }

  function NoEffect(f: FxFile): Outcome
  {
    Outcome(f, None)
  }

  predicate InRange<T>(i: int, s: seq<T>)
  {
    0 <= i < |s|
  }

  /** One command's effect on the state file and on the audio surface. */
  function Dispatch(c: Command, config: Config, f: FxFile): (o: Outcome)
    ensures o.store != f ==> c.SetVoiceFx? || c.LoadVoicePreset?
    ensures (c.SetVoiceFx? || c.LoadVoicePreset? || c.Ignored?) ==> o.forwarded.None?
    ensures c.Ignored? ==> o == Outcome(f, None)
    ensures c.SetVoiceFx? && (c.fxName.None? || c.value.None?) ==> o == Outcome(f, None)
    ensures c.LoadVoicePreset? && (c.presetIndex.None? || !InRange(c.presetIndex.value, config.presets)) ==> o == Outcome(f, None)
    ensures (c.SetMasterVolume? && c.level.None?) || (c.SetMicVolume? && c.value.None?) ==> o == Outcome(f, None)
  {
    match c
    case SetMasterVolume(level) =>
      if level.Some? then Forward(f, MasterVolume(level.value)) else NoEffect(f)
    case SetMasterMute(muted) => Forward(f, MasterMute(muted))
    case SetGroupVolume(idx, level) =>
      if idx.Some? && InRange(idx.value, config.groups) && level.Some?
      then Forward(f, GroupVolume(config.groups[idx.value].apps, level.value))
      else NoEffect(f)
    case SetGroupMute(idx, muted) =>
      if idx.Some? && InRange(idx.value, config.groups)
      then Forward(f, GroupMute(config.groups[idx.value].apps, muted))
      else NoEffect(f)
    case SetMicMute(muted) => Forward(f, MicMute(muted))
    case SetMicVolume(value) =>
      if value.Some? then Forward(f, MicVolume(MicVolumeLevel(value.value))) else NoEffect(f)
    case LoadVoicePreset(idx) =>
      if idx.Some? && InRange(idx.value, config.presets) then
        // the file is opened for writing (truncated) before the preset's values are looked up
        var values := config.presets[idx.value].values;
        NoEffect(if values.Some? then Stored(values.value) else Unreadable)
      else NoEffect(f)
    case SetVoiceFx(name, value) =>
      if name.Some? && value.Some? then NoEffect(Stored(Contents(f)[name.value := value.value]))
      else NoEffect(f)
    case MediaControl(key) => Forward(f, MediaKey(key))
    case RunStreamDeckAction(exe) => Forward(f, Launch(exe))
    case Ignored => NoEffect(f)
  }

  /** `handle_command`: decode the request, then dispatch it. */
  function HandleCommand(p: Fields, config: Config, f: FxFile): (o: Outcome)
    ensures o.store != f ==> Get(p, "action") == Some(Str("set_voice_fx")) || Get(p, "action") == Some(Str("load_voice_preset"))
    ensures (forall a :: Get(p, "action") == Some(Str(a)) ==> a !in Actions) ==> o == Outcome(f, None)
    ensures Get(p, "action") == Some(Str("set_voice_fx")) && (AsKey(Get(p, "fx_name")).None? || AsFloat(Get(p, "value")).None?) ==>
      o == Outcome(f, None)
    ensures (Get(p, "action") == Some(Str("load_voice_preset")) &&
             (AsInt(Get(p, "preset_index")).None? || !InRange(AsInt(Get(p, "preset_index")).value, config.presets))) ==>
      o == Outcome(f, None)
    ensures Get(p, "action") == Some(Str("set_master_volume")) && "level" in p && AsFloat(Some(p["level"])).None? ==> o == Outcome(f, None)
    ensures Get(p, "action") == Some(Str("set_mic_volume")) && AsFloat(Get(p, "value")).None? ==> o == Outcome(f, None)
  {
    DecodeMatchesActionName(p);
    Dispatch(Decode(p), config, f)
  }

  /** `set_voice_fx` changes exactly the named key: it holds the new value and every other key keeps its old one. */
  lemma SetVoiceFxWritesOneKey(p: Fields, name: string, value: real, config: Config, f: FxFile)
    requires Get(p, "action") == Some(Str("set_voice_fx"))
    requires Get(p, "fx_name") == Some(Str(name)) && Get(p, "value") == Some(Num(value))
    ensures HandleCommand(p, config, f).forwarded.None?
    ensures HandleCommand(p, config, f).store.Stored?
    ensures var m := HandleCommand(p, config, f).store.values;
      && m.Keys == Contents(f).Keys + {name}
      && m[name] == value
      && forall k :: k in Contents(f) && k != name ==> m[k] == Contents(f)[k]
  {
  }

  /** From a missing or undecodable file, `set_voice_fx` leaves exactly the one written key. */
  lemma SetVoiceFxFromScratch(p: Fields, name: string, value: real, config: Config, f: FxFile)
    requires Get(p, "action") == Some(Str("set_voice_fx"))
    requires Get(p, "fx_name") == Some(Str(name)) && Get(p, "value") == Some(Num(value))
    requires !f.Stored?
    ensures HandleCommand(p, config, f).store == Stored(map[name := value])
  {
  }

  /** `load_voice_preset` with an index in range replaces the whole store by the preset's values. */
  lemma LoadPresetReplaces(p: Fields, i: int, config: Config, f: FxFile)
    requires Get(p, "action") == Some(Str("load_voice_preset")) && Get(p, "preset_index") == Some(Num(i as real))
    requires 0 <= i < |config.presets|
    requires config.presets[i].values.Some?
    ensures HandleCommand(p, config, f) == Outcome(Stored(config.presets[i].values.value), None)
  {
    IntRoundTrip(i);
  }

  /** `load_voice_preset` with an index out of range (negative included) changes nothing. */
  lemma LoadPresetOutOfRange(p: Fields, i: int, config: Config, f: FxFile)
    requires Get(p, "action") == Some(Str("load_voice_preset")) && Get(p, "preset_index") == Some(Num(i as real))
    requires i < 0 || |config.presets| <= i
    ensures HandleCommand(p, config, f) == Outcome(f, None)
  {
    IntRoundTrip(i);
  }

  /**
   * `load_voice_preset` for an in-range preset that has no values: the file is
   * truncated before the lookup raises, so the store is left undecodable.
   */
  lemma LoadPresetWithoutValuesTruncates(p: Fields, i: int, config: Config, f: FxFile)
    requires Get(p, "action") == Some(Str("load_voice_preset")) && Get(p, "preset_index") == Some(Num(i as real))
    requires 0 <= i < |config.presets|
    requires config.presets[i].values.None?
    ensures HandleCommand(p, config, f) == Outcome(Unreadable, None)
  {
    IntRoundTrip(i);
  }

  /** Group commands are forwarded exactly when their converted index is in range (and, for volume, the level converts). */
  lemma GroupCommandsBoundsChecked(p: Fields, config: Config, f: FxFile)
    requires Get(p, "action") == Some(Str("set_group_volume")) || Get(p, "action") == Some(Str("set_group_mute"))
    ensures var o := HandleCommand(p, config, f);
      && o.store == f
      && (o.forwarded.Some? <==>
            AsInt(Get(p, "group_index")).Some? && InRange(AsInt(Get(p, "group_index")).value, config.groups)
            && (Get(p, "action") == Some(Str("set_group_volume")) ==> AsFloat(Get(p, "level")).Some?))
      && (o.forwarded.Some? ==> o.forwarded.value.apps == config.groups[AsInt(Get(p, "group_index")).value].apps)
  {
  }

  // ---------------------------------------------------------------------------
  // Preset matching
  // ---------------------------------------------------------------------------

  /** `preset.get("values") == current_fx`: exact equality, and a preset without values never matches. */
  predicate Matches(p: Preset, fx: FxMap)
  {
    p.values == Some(fx)
  }

  /** `r` is the least index of a preset equal to `fx`, or -1 when there is none. */
  ghost predicate IsFirstMatch(fx: FxMap, presets: seq<Preset>, r: int)
  {
    || (r == -1 && forall j :: 0 <= j < |presets| ==> !Matches(presets[j], fx))
    || (0 <= r < |presets| && Matches(presets[r], fx) && forall j :: 0 <= j < r ==> !Matches(presets[j], fx))
  }

  function FirstMatchFrom(fx: FxMap, presets: seq<Preset>, from: nat): (r: int)
    requires from <= |presets|
    ensures r == -1 ==> forall j :: from <= j < |presets| ==> !Matches(presets[j], fx)
    ensures r != -1 ==> from <= r < |presets| && Matches(presets[r], fx)
    ensures r != -1 ==> forall j :: from <= j < r ==> !Matches(presets[j], fx)
    decreases |presets| - from
  {
    if from == |presets| then -1
    else if Matches(presets[from], fx) then from
    else FirstMatchFrom(fx, presets, from + 1)
  }

  /** The index reported as `active_preset` for the parameter set `fx`. */
  function ActivePreset(fx: FxMap, presets: seq<Preset>): (r: int)
    ensures IsFirstMatch(fx, presets, r)
  {
    FirstMatchFrom(fx, presets, 0)
  }

  /** The first-match answer is unique. */
  lemma FirstMatchUnique(fx: FxMap, presets: seq<Preset>, r1: int, r2: int)
    requires IsFirstMatch(fx, presets, r1) && IsFirstMatch(fx, presets, r2)
    ensures r1 == r2
  {
  }

  /** The scan in `update_full_state`: walk the presets in order and stop at the first exact match. */
  method ScanPresets(fx: FxMap, presets: seq<Preset>) returns (r: int)
    ensures IsFirstMatch(fx, presets, r)
    ensures r == ActivePreset(fx, presets)
  {
    r := -1;
    var i := 0;
    while i < |presets|
      invariant 0 <= i <= |presets|
      invariant forall j :: 0 <= j < i ==> !Matches(presets[j], fx)
    {
      if Matches(presets[i], fx) {
        r := i;
        break;
      }
      i := i + 1;
    }
    FirstMatchUnique(fx, presets, r, ActivePreset(fx, presets));
  }

  /** Exact equality: once the store differs in any way from a matching preset, that preset is no longer reported. */
  lemma PerturbedStoreLosesMatch(fx: FxMap, changed: FxMap, presets: seq<Preset>, i: int)
    requires 0 <= i < |presets| && Matches(presets[i], fx)
    requires changed != fx
    ensures ActivePreset(changed, presets) != i
  {
  }

  /** After loading preset `i` the matcher reports `i`, or an earlier preset with identical values. */
  lemma LoadedPresetIsReported(p: Fields, i: int, config: Config, f: FxFile)
    requires Get(p, "action") == Some(Str("load_voice_preset")) && Get(p, "preset_index") == Some(Num(i as real))
    requires 0 <= i < |config.presets|
    requires config.presets[i].values.Some?
    ensures HandleCommand(p, config, f).store.Stored?
    ensures var r := ActivePreset(HandleCommand(p, config, f).store.values, config.presets);
      && 0 <= r <= i
      && config.presets[r].values == config.presets[i].values
      && ((forall j :: 0 <= j < i ==> config.presets[j].values != config.presets[i].values) ==> r == i)
  {
    LoadPresetReplaces(p, i, config, f);
  }

  // ---------------------------------------------------------------------------
  // State snapshot assembly
  // ---------------------------------------------------------------------------

  /** An audio session as the operating system lists it. */
  datatype OsSession = OsSession(process: Option<string>, level: real, muted: bool)

  /** Everything `update_full_state` queries from the operating system. */
  datatype OsAudio = OsAudio(masterLevel: real, masterMuted: bool, sessions: seq<OsSession>, micMuted: bool, micLevel: real)

  /** Session `i` is the last one listed for process `name`. */
  ghost predicate LastSessionOf(sessions: seq<OsSession>, name: string, i: int)
  {
    && 0 <= i < |sessions|
    && sessions[i].process == Some(name)
    && forall j :: i < j < |sessions| ==> sessions[j].process != Some(name)
  }

  /** Some listed session belongs to process `name`. */
  ghost predicate Listed(sessions: seq<OsSession>, name: string)
  {
    exists i :: 0 <= i < |sessions| && sessions[i].process == Some(name)
  }

  /** `t` holds exactly the listed process names, each with the last session listed for it. */
  ghost predicate IsSessionTable(sessions: seq<OsSession>, t: map<string, OsSession>)
  {
    && (forall name :: name in t <==> Listed(sessions, name))
    && (forall name :: name in t ==> exists i :: LastSessionOf(sessions, name, i) && t[name] == sessions[i])
  }

  /** `{s.Process.name(): s for s in sessions if s.Process}`: sessions by process name, a later session overriding an earlier one. */
  function SessionTable(sessions: seq<OsSession>): (t: map<string, OsSession>)
    ensures forall name :: name in t <==> exists i :: 0 <= i < |sessions| && sessions[i].process == Some(name)
    ensures forall name :: name in t ==> exists i :: LastSessionOf(sessions, name, i) && t[name] == sessions[i]
  {
    if |sessions| == 0 then map[]
    else
      var last := sessions[|sessions| - 1];
      var t := SessionTable(sessions[..|sessions| - 1]);
      var t' := if last.process.Some? then t[last.process.value := last] else t;
      SessionTableStep(sessions, t, t');
      t'
  }

  /** Appending one session to the list: the table updated with it is the table of the longer list. */
  lemma SessionTableStep(sessions: seq<OsSession>, t: map<string, OsSession>, t': map<string, OsSession>)
    requires |sessions| > 0
    requires IsSessionTable(sessions[..|sessions| - 1], t)
    requires var last := sessions[|sessions| - 1];
      t' == if last.process.Some? then t[last.process.value := last] else t
    ensures IsSessionTable(sessions, t')
  {
    var n := |sessions| - 1;
    forall name ensures name in t' <==> Listed(sessions, name) {
      ListedStep(sessions, name);
    }
    forall name | name in t'
      ensures exists i :: LastSessionOf(sessions, name, i) && t'[name] == sessions[i]
    {
      if sessions[n].process == Some(name) {
        assert LastSessionOf(sessions, name, n);
      } else {
        assert name in t;
        var i :| LastSessionOf(sessions[..n], name, i) && t[name] == sessions[..n][i];
        LastSessionStep(sessions, name, i);
      }
    }
  }

  /** An earlier last session for `name` stays the last one when the appended session is another process's. */
  lemma LastSessionStep(sessions: seq<OsSession>, name: string, i: int)
    requires |sessions| > 0
    requires LastSessionOf(sessions[..|sessions| - 1], name, i)
    requires sessions[|sessions| - 1].process != Some(name)
    ensures LastSessionOf(sessions, name, i)
  {
    var n := |sessions| - 1;
    assert sessions[i] == sessions[..n][i];
    forall j | i < j < |sessions| ensures sessions[j].process != Some(name) {
      if j < n {
        assert sessions[j] == sessions[..n][j];
      }
    }
  }

  /** A name is listed in a non-empty list iff it is listed before the last session or is the last session's. */
  lemma ListedStep(sessions: seq<OsSession>, name: string)
    requires |sessions| > 0
    ensures Listed(sessions, name) <==>
      Listed(sessions[..|sessions| - 1], name) || sessions[|sessions| - 1].process == Some(name)
  {
    var n := |sessions| - 1;
    if Listed(sessions, name) && sessions[n].process != Some(name) {
      var i :| 0 <= i < |sessions| && sessions[i].process == Some(name);
      assert sessions[..n][i] == sessions[i];
    }
    if Listed(sessions[..n], name) {
      var i :| 0 <= i < n && sessions[..n][i].process == Some(name);
      assert sessions[i] == sessions[..n][i];
    }
  }

  function ActiveSessionFrom(apps: seq<string>, table: map<string, OsSession>, from: nat): (r: Option<OsSession>)
    requires from <= |apps|
    ensures r.None? <==> forall i :: from <= i < |apps| ==> apps[i] !in table
    ensures r.Some? ==> exists i :: (from <= i < |apps| && apps[i] in table && r.value == table[apps[i]]
                                     && forall j :: from <= j < i ==> apps[j] !in table)
    decreases |apps| - from
  {
    if from == |apps| then None
    else if apps[from] in table then Some(table[apps[from]])
    else ActiveSessionFrom(apps, table, from + 1)
  }

  /** `next(sessions[app] for app in apps if app in sessions)`: the session of the first listed app that has one. */
  function ActiveSession(apps: seq<string>, table: map<string, OsSession>): (r: Option<OsSession>)
    ensures r.None? <==> forall i :: 0 <= i < |apps| ==> apps[i] !in table
    ensures r.Some? ==> exists i :: (0 <= i < |apps| && apps[i] in table && r.value == table[apps[i]]
                                     && forall j :: 0 <= j < i ==> apps[j] !in table)
  {
    ActiveSessionFrom(apps, table, 0)
  }

  /** A group's entry: its first active session's level and mute, or the `-1`/unmuted sentinel when none is playing. */
  function GroupSnapshot(g: MixerGroup, table: map<string, OsSession>): (s: Snapshot.GroupState)
    ensures (forall i :: 0 <= i < |g.apps| ==> g.apps[i] !in table) ==> s == Snapshot.GroupState(Some(-1.0), Some(false))
    ensures (exists i :: 0 <= i < |g.apps| && g.apps[i] in table) ==>
      exists i :: (0 <= i < |g.apps| && g.apps[i] in table
                   && (forall j :: 0 <= j < i ==> g.apps[j] !in table)
                   && s == Snapshot.GroupState(Some(table[g.apps[i]].level), Some(table[g.apps[i]].muted)))
  {
    match ActiveSession(g.apps, table)
    case Some(session) => Snapshot.GroupState(Some(session.level), Some(session.muted))
    case None => Snapshot.GroupState(Some(-1.0), Some(false))
  }

  /** The document has the `audio`, `audio.master` and `voice` objects that `update_full_state` writes into. */
  predicate Prepared(start: Snapshot.State)
  {
    start.audio.Some? && start.audio.value.master.Some? && start.voice.Some?
  }

  /**
   * `update_full_state`, writing into the document `start`: OS levels and
   * mutes, one entry per configured group, the mic state, the stored
   * parameters when the file exists, and the matched preset. Any lookup that
   * raises stops the update there, the blanket `try` swallowing it: a missing
   * `audio`/`master` object leaves the document as it was, a missing `voice`
   * object leaves it without voice fields, and an undecodable file leaves
   * `fx` and `active_preset` as they were.
   */
  function UpdateFullState(start: Snapshot.State, os: OsAudio, f: FxFile, config: Config): (s: Snapshot.State)
    ensures start.audio.None? || start.audio.value.master.None? ==> s == start
    ensures start.audio.Some? && start.audio.value.master.Some? ==>
      && s.audio.Some? && s.audio.value.master == Some(Snapshot.Master(Some(os.masterLevel), Some(os.masterMuted)))
      && s.audio.value.groups.Some? && |s.audio.value.groups.value| == |config.groups|
      && (forall i :: 0 <= i < |config.groups| ==>
            s.audio.value.groups.value[i] == GroupSnapshot(config.groups[i], SessionTable(os.sessions)))
      && (start.voice.None? ==> s.voice.None?)
    ensures Prepared(start) ==>
      && s.voice.Some? && s.voice.value.micMute == Some(os.micMuted) && s.voice.value.micLevel == Some(os.micLevel)
      && (f.Stored? ==> s.voice.value.fx == Some(f.values))
      && (!f.Stored? ==> s.voice.value.fx == start.voice.value.fx)
      && (f.Unreadable? ==> s.voice.value.activePreset == start.voice.value.activePreset)
      && (!f.Unreadable? ==>
            (&& s.voice.value.activePreset.Some?
             && IsFirstMatch(if f.Stored? then f.values else start.voice.value.fx.GetOr(map[]),
                             config.presets, s.voice.value.activePreset.value)))
  {
    if start.audio.None? || start.audio.value.master.None? then start
    else
      var table := SessionTable(os.sessions);
      var groups := seq(|config.groups|, i requires 0 <= i < |config.groups| => GroupSnapshot(config.groups[i], table));
      var audio := start.audio.value.(master := Some(Snapshot.Master(Some(os.masterLevel), Some(os.masterMuted))),
                                      groups := Some(groups));
      if start.voice.None? then start.(audio := Some(audio))
      else
        var mic := start.voice.value.(micMute := Some(os.micMuted), micLevel := Some(os.micLevel));
        var voice :=
          match f
          case Unreadable => mic
          case Missing => mic.(activePreset := Some(ActivePreset(mic.fx.GetOr(map[]), config.presets)))
          case Stored(fx) => mic.(fx := Some(fx), activePreset := Some(ActivePreset(fx, config.presets)));
        Snapshot.State(Some(audio), Some(voice))
  }
}

=== FILE: end_to_end.dfy ===
/**
 * Properties that span the client, the server and the voice-FX processor:
 * what each client control does once it reaches the handler, and how the
 * client's displayed values relate to what the processor applies.
 */
module EndToEnd {
  import opened Wrappers
  import opened Payload
  import opened FxStore
  import AudioControls
  import FlowdeckServer
  import FlowDeckApp
  import VoiceFx

  /** `set_fx` reaches the store as a one-key write, except the microphone knob, which only forwards a volume. */
  lemma FxControlRoundTrip(name: string, value: real, config: Config, f: FxFile)
    ensures var (response, o) := FlowdeckServer.ControlStep(Some(FlowDeckApp.FxRequest(name, value)), config, f);
      && response.Success?
      && (name == "mic_volume" ==> o == AudioControls.Outcome(f, Some(AudioControls.MicVolume(AudioControls.MicVolumeLevel(value)))))
      && (name != "mic_volume" ==> o == AudioControls.Outcome(Stored(Contents(f)[name := value]), None))
  {
  }

  /** Mute toggles forward the negation of what the client currently shows. */
  lemma MuteTogglesNegate(v: FlowDeckApp.View, config: Config, f: FxFile)
    ensures FlowdeckServer.ControlStep(Some(FlowDeckApp.MasterMuteRequest(v)), config, f).1
      == AudioControls.Outcome(f, Some(AudioControls.MasterMute(!v.masterMuted)))
    ensures FlowdeckServer.ControlStep(Some(FlowDeckApp.MicMuteRequest(v)), config, f).1
      == AudioControls.Outcome(f, Some(AudioControls.MicMute(!v.micMuted)))
  {
  }

  /** A group-mute toggle for a group shown and configured at `idx` forwards the negated flag to that group's apps. */
  lemma GroupMuteToggle(v: FlowDeckApp.View, idx: int, config: Config, f: FxFile)
    requires 0 <= idx < |v.groupMutes| && idx < |config.groups|
    ensures FlowDeckApp.GroupMuteRequest(v, idx).Some?
    ensures FlowdeckServer.ControlStep(FlowDeckApp.GroupMuteRequest(v, idx), config, f).1
      == AudioControls.Outcome(f, Some(AudioControls.GroupMute(config.groups[idx].apps, !v.groupMutes[idx])))
  {
    IntRoundTrip(idx);
  }

  /** A group-level slider reaches that group's apps when the index is configured, and otherwise does nothing. */
  lemma GroupLevelRoundTrip(idx: int, level: real, config: Config, f: FxFile)
    ensures var o := FlowdeckServer.ControlStep(Some(FlowDeckApp.GroupLevelRequest(idx, level)), config, f).1;
      && (0 <= idx < |config.groups| ==> o == AudioControls.Outcome(f, Some(AudioControls.GroupVolume(config.groups[idx].apps, level))))
      && (idx < 0 || |config.groups| <= idx ==> o == AudioControls.Outcome(f, None))
  {
    IntRoundTrip(idx);
  }

  /** Selecting preset `idx` replaces the store when it exists and is ignored otherwise. */
  lemma PresetButtonRoundTrip(idx: int, config: Config, f: FxFile)
    ensures var o := FlowdeckServer.ControlStep(Some(FlowDeckApp.LoadPresetRequest(idx)), config, f).1;
      && (0 <= idx < |config.presets| && config.presets[idx].values.Some? ==>
            o == AudioControls.Outcome(Stored(config.presets[idx].values.value), None))
      && (idx < 0 || |config.presets| <= idx ==> o == AudioControls.Outcome(f, None))
  {
    IntRoundTrip(idx);
  }

  /** The master slider, media keys and deck buttons are forwarded with their arguments unchanged. */
  lemma ForwardedControls(level: real, key: string, exe: string, config: Config, f: FxFile)
    ensures FlowdeckServer.ControlStep(Some(FlowDeckApp.MasterLevelRequest(level)), config, f).1
      == AudioControls.Outcome(f, Some(AudioControls.MasterVolume(level)))
    ensures FlowdeckServer.ControlStep(Some(FlowDeckApp.MediaRequest(key)), config, f).1
      == AudioControls.Outcome(f, Some(AudioControls.MediaKey(Some(Str(key)))))
    ensures FlowdeckServer.ControlStep(Some(FlowDeckApp.DeckActionRequest(exe)), config, f).1
      == AudioControls.Outcome(f, Some(AudioControls.Launch(Some(Str(exe)))))
  {
  }

  /**
   * Whatever the state file holds, the client's pitch, reverb and echo knobs
   * show exactly the parameters the processor applies to the next block:
   * both sides use the same defaults.
   */
  lemma KnobsMatchProcessor(v: FlowDeckApp.View, os: AudioControls.OsAudio, f: FxFile, config: Config, board: seq<VoiceFx.Unit>)
    requires VoiceFx.IsChain(board)
    ensures var knobs := FlowDeckApp.UpdateFromState(v, FlowdeckServer.GetState(os, f, config)).fxKnobs;
      var board' := VoiceFx.Callback(board, f);
      && VoiceFx.Semitones(knobs[0]) == board'[2].semitones
      && knobs[1] == board'[0].roomSize
      && VoiceFx.DelaySeconds(knobs[3]) == board'[1].delaySeconds
      && VoiceFx.EchoMix(knobs[3]) == board'[1].mix
  {
  }

  /**
   * The client shows the server's matched preset, including -1 for no match,
   * but an undecodable store leaves `active_preset` out of the document and
   * the client then shows preset 0.
   */
  lemma ClientActivePreset(v: FlowDeckApp.View, os: AudioControls.OsAudio, f: FxFile, config: Config)
    ensures var shown := FlowDeckApp.UpdateFromState(v, FlowdeckServer.GetState(os, f, config)).activePreset;
      && (!f.Unreadable? ==> AudioControls.IsFirstMatch(Contents(f), config.presets, shown))
      && (f.Unreadable? ==> shown == 0)
  {
  }

  /**
   * A configured group with no playing session is sent as the `-1` sentinel;
   * the client keeps its previous level for it and shows it unmuted.
   */
  lemma SilentGroupKeepsLevel(v: FlowDeckApp.View, os: AudioControls.OsAudio, f: FxFile, config: Config, i: int)
    requires |config.groups| == |v.groupLevels|
    requires 0 <= i < |config.groups|
    requires forall k :: 0 <= k < |config.groups[i].apps| ==> config.groups[i].apps[k] !in AudioControls.SessionTable(os.sessions)
    ensures var v' := FlowDeckApp.UpdateFromState(v, FlowdeckServer.GetState(os, f, config));
      v'.groupLevels[i] == v.groupLevels[i] && !v'.groupMutes[i]
  {
  }
}

=== FILE: flowdeck_server.dfy ===
/**
 * The server's start-up store initialisation (`load_config`), its request
 * gate (`control`) and the state query (`get_state`). Routing and the HTTP
 * transport are external.
 */
module FlowdeckServer {
  import opened Wrappers
  import opened Payload
  import opened FxStore
  import AudioControls
  import Snapshot

  /** The server after start-up: running with a configuration, or exited on a fatal error. */
  datatype Startup = Running(config: Config, store: FxFile) | Exited(store: FxFile)

  /**
   * `load_config`: an unreadable configuration exits; with presets, the state
   * file is rewritten to preset 0's values (the file is truncated first, so a
   * preset 0 without values leaves it undecodable and the server exits);
   * without presets the previous file is left as it was.
   */
  function LoadConfig(configFile: Option<Config>, f: FxFile): (s: Startup)
    ensures configFile.None? ==> s == Exited(f)
    ensures configFile.Some? && |configFile.value.presets| == 0 ==> s == Running(configFile.value, f)
    ensures configFile.Some? && |configFile.value.presets| > 0 ==>
      (s.Running? <==> configFile.value.presets[0].values.Some?)
    ensures s.Running? ==> configFile == Some(s.config)
    ensures s.Running? && |s.config.presets| > 0 ==>
      s.config.presets[0].values.Some? && s.store == Stored(s.config.presets[0].values.value)
    ensures s.Exited? && configFile.Some? ==> s.store == Unreadable
  {
    match configFile
    case None => Exited(f)
    case Some(config) =>
      if |config.presets| == 0 then Running(config, f)
      else
        match config.presets[0].values
        case Some(values) => Running(config, Stored(values))
        case None => Exited(Unreadable)
  }

  /** The reply to a control request. */
  datatype Response = BadRequest | Success(actionTriggered: Value)

  /**
   * `control`: a null or empty body, or one whose `action` is absent or falsy,
   * gets 400; anything else is acknowledged with its action echoed, before
   * and regardless of what the command then does.
   */
  function Control(data: Option<Fields>): (r: Response)
    ensures r.BadRequest? <==> data.None? || !Truthy(Get(data.value, "action"))
    ensures r.Success? ==> "action" in data.value && r.actionTriggered == data.value["action"]
  {
    if data.None? || !Truthy(Get(data.value, "action")) then BadRequest
    else Success(data.value["action"])
  }

  /** A control request together with the handler run it triggers (modelled as completing atomically). */
  function ControlStep(data: Option<Fields>, config: Config, f: FxFile): (r: (Response, AudioControls.Outcome))
    ensures r.0.BadRequest? ==> r.1 == AudioControls.Outcome(f, None)
  {
    var response := Control(data);
    if response.BadRequest? then (response, AudioControls.Outcome(f, None))
    else (response, AudioControls.HandleCommand(data.value, config, f))
  }

  /** The acknowledgement depends on the request alone, never on the configuration or the store. */
  lemma AcknowledgementIndependentOfEffect(data: Option<Fields>, c1: Config, f1: FxFile, c2: Config, f2: FxFile)
    ensures ControlStep(data, c1, f1).0 == ControlStep(data, c2, f2).0
  {
  }

  /** An accepted request with an unknown action is still acknowledged, and does nothing. */
  lemma UnknownActionAcknowledged(action: string, config: Config, f: FxFile)
    requires action != "" && action !in AudioControls.Actions
    ensures ControlStep(Some(map["action" := Str(action)]), config, f)
      == (Success(Str(action)), AudioControls.Outcome(f, None))
  {
    assert AudioControls.HandleCommand(map["action" := Str(action)], config, f) == AudioControls.Outcome(f, None);
  }

  /** The document a state query starts from: `{audio: {master: {}, groups: []}, voice: {}}`. */
  const Skeleton: Snapshot.State :=
    Snapshot.State(Some(Snapshot.Audio(Some(Snapshot.Master(None, None)), Some([]))),
                   Some(Snapshot.Voice(None, None, None, None)))

  /**
   * `get_state`: the skeleton filled in by `update_full_state`. The skeleton
   * has no `fx` and no `active_preset`, so a missing file reports no `fx` and
   * the match of the empty map, and an undecodable file reports neither.
   */
  function GetState(os: AudioControls.OsAudio, f: FxFile, config: Config): (s: Snapshot.State)
    ensures s.audio.Some? && s.audio.value.master == Some(Snapshot.Master(Some(os.masterLevel), Some(os.masterMuted)))
    ensures s.audio.value.groups.Some? && |s.audio.value.groups.value| == |config.groups|
    ensures forall i :: 0 <= i < |config.groups| ==>
      s.audio.value.groups.value[i] == AudioControls.GroupSnapshot(config.groups[i], AudioControls.SessionTable(os.sessions))
    ensures s.voice.Some? && s.voice.value.micMute == Some(os.micMuted) && s.voice.value.micLevel == Some(os.micLevel)
    ensures f.Stored? ==> s.voice.value.fx == Some(f.values)
    ensures !f.Stored? ==> s.voice.value.fx.None?
    ensures f.Unreadable? ==> s.voice.value.activePreset.None?
    ensures !f.Unreadable? ==> (s.voice.value.activePreset.Some?
      && AudioControls.IsFirstMatch(Contents(f), config.presets, s.voice.value.activePreset.value))
  {
    assert AudioControls.Prepared(Skeleton);
    AudioControls.UpdateFullState(Skeleton, os, f, config)
  }

  /** Right after a start-up that seeded the store, a state query reports preset 0 as active. */
  lemma StartupReportsFirstPreset(configFile: Option<Config>, f: FxFile, os: AudioControls.OsAudio)
    requires LoadConfig(configFile, f).Running?
    requires |configFile.value.presets| > 0
    ensures var s := LoadConfig(configFile, f);
      GetState(os, s.store, s.config).voice.value.activePreset == Some(0)
  {
  }
}

=== FILE: fx_store.dfy ===
/**
 * The shared FX parameter store (the `fx_state.json` file) and the parts of
 * the server configuration (`config.json`) that the control plane reads.
 */
module FxStore {
  import opened Wrappers
  import opened Payload

  /** Effect parameters by name (`pitch`, `reverb`, `echo`, or any key a command wrote). */
  type FxMap = map<string, real>

  /**
   * What a reader of the state file finds: no file, a file that does not
   * decode (for instance one truncated by a failed write), or a decoded map.
   */
  datatype FxFile = Missing | Unreadable | Stored(values: FxMap)

  /** A configured voice preset; either key may be absent from the configuration. */
  datatype Preset = Preset(name: Option<string>, values: Option<FxMap>)

  /** An audio-mixer group: a display name and the process names whose sessions it controls. */
  datatype MixerGroup = MixerGroup(name: Option<string>, apps: seq<string>)

  /** A stream-deck button as configured; the control plane passes it through untouched. */
  datatype DeckButton = DeckButton(fields: Fields)

  /** The configuration; an absent list key behaves exactly like an empty list. */
  datatype Config = Config(groups: seq<MixerGroup>, presets: seq<Preset>, deckButtons: seq<DeckButton>)

  /**
   * The map a read-modify-write starts from: the decoded contents, or the
   * empty map when the file is missing or does not decode.
   */
  function Contents(f: FxFile): (m: FxMap)
    ensures f.Stored? ==> m == f.values
    ensures !f.Stored? ==> m == map[]
  {
    if f.Stored? then f.values else map[]
  }

  /** `fx.get(key, default)`. */
  function Lookup(fx: FxMap, key: string, default: real): real
  {
    if key in fx then fx[key] else default
  }
}

=== FILE: payload.dfy ===
/**
 * JSON scalar values as they arrive in a control request, and the Python
 * conversions (`float(...)`, `int(...)`, `bool(...)`, dictionary-key rendering)
 * the command handler applies to them.
 */
module Payload {
  import opened Wrappers

  /** A JSON scalar carried by a request field. */
  datatype Value = Null | Bool(b: bool) | Num(n: real) | Str(s: string)

  /** A request body: a JSON object of scalar fields. */
  type Fields = map<string, Value>

  /** `fields.get(key)`: `None` when the key is absent. */
  function Get(fields: Fields, key: string): Option<Value>
  {
    if key in fields then Some(fields[key]) else None
  }

  /** Python's `bool(x)` applied to `fields.get(...)`: `None`, `null`, `false`, `0` and `""` are falsy. */
  function Truthy(v: Option<Value>): (t: bool)
    ensures !t <==> v in {None, Some(Null), Some(Bool(false)), Some(Num(0.0)), Some(Str(""))}
  {
    match v
    case None => false
    case Some(Null) => false
    case Some(Bool(b)) => b
    case Some(Num(n)) => n != 0.0
    case Some(Str(s)) => s != ""
  }

  /** Python's `int(x)` on a float: truncation toward zero. */
  function Trunc(x: real): (r: int)
    ensures 0.0 <= x ==> r as real <= x < r as real + 1.0
    ensures x < 0.0 ==> r as real - 1.0 < x <= r as real
  {
    if x >= 0.0 then x.Floor else -((-x).Floor)
  }

  /** Python's `float(x)`: numbers and booleans convert, `None`/`null` raise. */
  function AsFloat(v: Option<Value>): (r: Option<real>)
    ensures r.Some? <==> v.Some? && (v.value.Num? || v.value.Bool?)
    ensures v.Some? && v.value.Num? ==> r == Some(v.value.n)
    ensures v == Some(Bool(true)) ==> r == Some(1.0)
    ensures v == Some(Bool(false)) ==> r == Some(0.0)
  {
    match v
    case Some(Num(n)) => Some(n)
    case Some(Bool(b)) => Some(if b then 1.0 else 0.0)
    case _ => None
  }

  /** Python's `int(x)`: numbers truncate toward zero, booleans give 0 or 1, `None`/`null` raise. */
  function AsInt(v: Option<Value>): (r: Option<int>)
    ensures r.Some? <==> AsFloat(v).Some?
    ensures r.Some? ==> r.value == Trunc(AsFloat(v).value)
  {
    match v
    case Some(Num(n)) => Some(Trunc(n))
    case Some(Bool(b)) => Some(if b then 1 else 0)
    case _ => None
  }

  /**
   * The key under which `json.dump` writes `state[x]`: a string stays as is,
   * `None` becomes "null" and booleans "true"/"false". Numeric keys are
   * outside the model and give `None`.
   */
  function AsKey(v: Option<Value>): (r: Option<string>)
    ensures r.Some? <==> !(v.Some? && v.value.Num?)
    ensures v.None? || v == Some(Null) ==> r == Some("null")
    ensures v.Some? && v.value.Str? ==> r == Some(v.value.s)
    ensures v == Some(Bool(true)) ==> r == Some("true")
    ensures v == Some(Bool(false)) ==> r == Some("false")
  {
    match v
    case None => Some("null")
    case Some(Null) => Some("null")
    case Some(Bool(b)) => Some(if b then "true" else "false")
    case Some(Str(s)) => Some(s)
    case Some(Num(_)) => None
  }

  /** An integer sent as a JSON number comes back unchanged through `int(...)`. */
  lemma IntRoundTrip(i: int)
    ensures AsInt(Some(Num(i as real))) == Some(i)
  {
    if i >= 0 {
      assert (i as real).Floor == i;
    } else {
      assert (-(i as real)).Floor == -i;
    }
  }

  /** Truncation never moves away from zero and is monotone. */
  lemma TruncMonotone(x: real, y: real)
    requires x <= y
    ensures Trunc(x) <= Trunc(y)
  {
    if 0.0 <= x {
      assert Trunc(x) as real <= x <= y < Trunc(y) as real + 1.0;
    } else if y < 0.0 {
      assert Trunc(x) as real - 1.0 < x <= y <= Trunc(y) as real;
    } else {
      assert Trunc(x) as real - 1.0 < x < 0.0;
      assert 0.0 <= y < Trunc(y) as real + 1.0;
    }
  }
}

=== FILE: pi_flowdeck_app.dfy ===
/**
 * The touch-screen client's view state: merging a polled state document into
 * its displayed fields, filling names from the configuration, building the
 * command payloads its controls send, and the swipe-up-to-exit rule. Widgets,
 * layout, scheduling and the HTTP client are external.
 */
module FlowDeckApp {
  import opened Wrappers
  import opened Payload
  import opened FxStore
  import Snapshot

  /** The application properties the widgets are bound to. */
  datatype View = View(
    groupNames: seq<string>,
    presetNames: seq<string>,
    deckButtons: seq<DeckButton>,
    masterLevel: real,
    masterMuted: bool,
    groupLevels: seq<real>,
    groupMutes: seq<bool>,
    micMuted: bool,
    activePreset: int,
    fxKnobs: seq<real>)

  /** The property defaults before anything arrives from the server: three groups, four knobs. */
  const InitialView: View :=
    View(["", "", ""], ["P1", "P2", "P3"], [], 0.0, false, [0.0, 0.0, 0.0], [false, false, false], false, 0, [0.5, 0.0, 1.0, 0.0])

  /** A view whose group mute list lines up with its group level list. */
  predicate WellShaped(v: View)
  {
    |v.groupMutes| == |v.groupLevels| && |v.fxKnobs| == 4
  }

  function AudioOf(s: Snapshot.State): Snapshot.Audio
  {
    s.audio.GetOr(Snapshot.Audio(None, None))
  }

  function MasterOf(s: Snapshot.State): Snapshot.Master
  {
    AudioOf(s).master.GetOr(Snapshot.Master(None, None))
  }

  function GroupsOf(s: Snapshot.State): seq<Snapshot.GroupState>
  {
    AudioOf(s).groups.GetOr([])
  }

  function VoiceOf(s: Snapshot.State): Snapshot.Voice
  {
    s.voice.GetOr(Snapshot.Voice(None, None, None, None))
  }

  /** A group's displayed level: the incoming one, unless it is absent or the `-1` no-session sentinel. */
  function MergedLevel(incoming: Snapshot.GroupState, previous: real): (r: real)
    ensures incoming.level.Some? && incoming.level.value != -1.0 ==> r == incoming.level.value
    ensures incoming.level.None? || incoming.level == Some(-1.0) ==> r == previous
  {
    match incoming.level
    case None => previous
    case Some(level) => if level == -1.0 then previous else level
  }

  /** `_update_ui_from_state`. */
  function UpdateFromState(v: View, s: Snapshot.State): (v': View)
    ensures v'.groupNames == v.groupNames && v'.presetNames == v.presetNames && v'.deckButtons == v.deckButtons
    ensures |v'.groupLevels| == |v.groupLevels|
    ensures WellShaped(v) ==> WellShaped(v')
    ensures |GroupsOf(s)| != |v.groupLevels| ==> v'.groupLevels == v.groupLevels && v'.groupMutes == v.groupMutes
    ensures |GroupsOf(s)| == |v.groupLevels| ==>
      && |v'.groupMutes| == |v.groupLevels|
      && forall i :: 0 <= i < |v.groupLevels| ==>
           && (GroupsOf(s)[i].level.Some? && GroupsOf(s)[i].level.value != -1.0 ==> v'.groupLevels[i] == GroupsOf(s)[i].level.value)
           && (GroupsOf(s)[i].level.None? || GroupsOf(s)[i].level == Some(-1.0) ==> v'.groupLevels[i] == v.groupLevels[i])
           && (v'.groupMutes[i] <==> GroupsOf(s)[i].muted == Some(true))
    ensures v'.masterLevel == MasterOf(s).level.GetOr(0.0) && v'.masterMuted == MasterOf(s).muted.GetOr(false)
    ensures v'.micMuted == VoiceOf(s).micMute.GetOr(false) && v'.activePreset == VoiceOf(s).activePreset.GetOr(0)
    ensures var fx := VoiceOf(s).fx.GetOr(map[]);
      && |v'.fxKnobs| == 4
      && v'.fxKnobs[0] == (if "pitch" in fx then fx["pitch"] else 0.5)
      && v'.fxKnobs[1] == (if "reverb" in fx then fx["reverb"] else 0.0)
      && v'.fxKnobs[2] == VoiceOf(s).micLevel.GetOr(1.0)
      && v'.fxKnobs[3] == (if "echo" in fx then fx["echo"] else 0.0)
  {
    var master := MasterOf(s);
    var incoming := GroupsOf(s);
    var voice := VoiceOf(s);
    var fx := voice.fx.GetOr(map[]);
    var levels :=
      if |incoming| == |v.groupLevels|
      then seq(|incoming|, i requires 0 <= i < |incoming| => MergedLevel(incoming[i], v.groupLevels[i]))
      else v.groupLevels;
    var mutes :=
      if |incoming| == |v.groupLevels|
      then seq(|incoming|, i requires 0 <= i < |incoming| => incoming[i].muted.GetOr(false))
      else v.groupMutes;
    v.(masterLevel := master.level.GetOr(0.0),
       masterMuted := master.muted.GetOr(false),
       groupLevels := levels,
       groupMutes := mutes,
       micMuted := voice.micMute.GetOr(false),
       activePreset := voice.activePreset.GetOr(0),
       fxKnobs := [Lookup(fx, "pitch", 0.5), Lookup(fx, "reverb", 0.0), voice.micLevel.GetOr(1.0), Lookup(fx, "echo", 0.0)])
  }

  /** An empty document leaves only defaults, except that group levels and mutes are kept unless there are no groups. */
  lemma EmptyStateGivesDefaults(v: View)
    requires |v.groupLevels| > 0
    ensures var v' := UpdateFromState(v, Snapshot.State(None, None));
      && v'.masterLevel == 0.0 && !v'.masterMuted && !v'.micMuted
      && v'.activePreset == 0
      && v'.fxKnobs == [0.5, 0.0, 1.0, 0.0]
      && v'.groupLevels == v.groupLevels && v'.groupMutes == v.groupMutes
  {
  }

  /** `P{i+1}`, the name shown for an unnamed preset among the first three. */
  function DefaultPresetName(i: nat): (name: string)
    requires i < 9
    ensures |name| == 2 && name[0] == 'P' && name[1] as int - '0' as int == i + 1
  {
    "P" + [('1' as int + i) as char]
  }

  function Min(a: int, b: int): int
  {
    if a <= b then a else b
  }

  /** `_populate_ui_from_config`: names of at most the first three groups and presets, with defaults. */
  function PopulateFromConfig(v: View, config: Config): (v': View)
    ensures |v'.groupNames| == Min(3, |config.groups|) && |v'.presetNames| == Min(3, |config.presets|)
    ensures forall i :: 0 <= i < |v'.groupNames| ==> v'.groupNames[i] == config.groups[i].name.GetOr("N/A")
    ensures forall i :: 0 <= i < |v'.presetNames| ==>
      v'.presetNames[i] == if config.presets[i].name.Some? then config.presets[i].name.value else DefaultPresetName(i)
    ensures v'.deckButtons == config.deckButtons
    ensures v' == v.(groupNames := v'.groupNames, presetNames := v'.presetNames, deckButtons := v'.deckButtons)
  {
    var groups := config.groups[..Min(3, |config.groups|)];
    var presets := config.presets[..Min(3, |config.presets|)];
    v.(groupNames := seq(|groups|, i requires 0 <= i < |groups| => groups[i].name.GetOr("N/A")),
       presetNames := seq(|presets|, i requires 0 <= i < |presets| => presets[i].name.GetOr(DefaultPresetName(i))),
       deckButtons := config.deckButtons)
  }

  /**
   * Group levels in the initial view never change once the server reports a
   * number of groups other than three, whatever the configuration says.
   */
  lemma GroupCountMismatchFreezesGroups(config: Config, s: Snapshot.State)
    requires |GroupsOf(s)| != 3
    ensures var v := UpdateFromState(PopulateFromConfig(InitialView, config), s);
      v.groupLevels == [0.0, 0.0, 0.0] && v.groupMutes == [false, false, false]
  {
  }

  // ---------------------------------------------------------------------------
  // Command payloads
  // ---------------------------------------------------------------------------

  /** `set_master_level`: the slider value as `level`. */
  function MasterLevelRequest(level: real): (p: Fields)
    ensures p.Keys == {"action", "level"}
    ensures Get(p, "action") == Some(Str("set_master_volume")) && Get(p, "level") == Some(Num(level))
  {
    map["action" := Str("set_master_volume"), "level" := Num(level)]
  }

  /** Toggles: the payload carries the negation of the flag currently shown. */
  function MasterMuteRequest(v: View): (p: Fields)
    ensures p.Keys == {"action", "is_muted"}
    ensures Get(p, "action") == Some(Str("set_master_mute"))
    ensures Get(p, "is_muted") == Some(Bool(true)) <==> !v.masterMuted
    ensures Get(p, "is_muted") == Some(Bool(false)) <==> v.masterMuted
  {
    map["action" := Str("set_master_mute"), "is_muted" := Bool(!v.masterMuted)]
  }

  /** `set_group_level`: the group's position and the slider value. */
  function GroupLevelRequest(idx: int, level: real): (p: Fields)
    ensures p.Keys == {"action", "group_index", "level"}
    ensures Get(p, "action") == Some(Str("set_group_volume"))
    ensures Get(p, "group_index") == Some(Num(idx as real)) && Get(p, "level") == Some(Num(level))
  {
    map["action" := Str("set_group_volume"), "group_index" := Num(idx as real), "level" := Num(level)]
  }

  /** Python list indexing, negative indices counting from the end; `None` is an `IndexError`. */
  function ListAt<T>(s: seq<T>, idx: int): (r: Option<T>)
    ensures r.Some? <==> -|s| <= idx < |s|
    ensures 0 <= idx < |s| ==> r == Some(s[idx])
    ensures -|s| <= idx < 0 ==> r == Some(s[|s| + idx])
  {
    if 0 <= idx < |s| then Some(s[idx])
    else if -|s| <= idx < 0 then Some(s[|s| + idx])
    else None
  }

  /** `set_group_mute`: reading the current flag raises for an index outside the list, and then nothing is sent. */
  function GroupMuteRequest(v: View, idx: int): (r: Option<Fields>)
    ensures r.Some? <==> -|v.groupMutes| <= idx < |v.groupMutes|
    ensures r.Some? ==>
      && r.value.Keys == {"action", "group_index", "is_muted"}
      && Get(r.value, "action") == Some(Str("set_group_mute"))
      && Get(r.value, "group_index") == Some(Num(idx as real))
      && Get(r.value, "is_muted") == Some(Bool(!ListAt(v.groupMutes, idx).value))
  {
    match ListAt(v.groupMutes, idx)
    case None => None
    case Some(muted) => Some(map["action" := Str("set_group_mute"), "group_index" := Num(idx as real), "is_muted" := Bool(!muted)])
  }

  function MicMuteRequest(v: View): (p: Fields)
    ensures p.Keys == {"action", "is_muted"}
    ensures Get(p, "action") == Some(Str("set_mic_mute"))
    ensures Get(p, "is_muted") == Some(Bool(true)) <==> !v.micMuted
    ensures Get(p, "is_muted") == Some(Bool(false)) <==> v.micMuted
  {
    map["action" := Str("set_mic_mute"), "is_muted" := Bool(!v.micMuted)]
  }

  /** `load_preset`: the preset's position. */
  function LoadPresetRequest(idx: int): (p: Fields)
    ensures p.Keys == {"action", "preset_index"}
    ensures Get(p, "action") == Some(Str("load_voice_preset")) && Get(p, "preset_index") == Some(Num(idx as real))
  {
    map["action" := Str("load_voice_preset"), "preset_index" := Num(idx as real)]
  }

  /** `set_fx`: the microphone knob becomes a microphone-volume command, any other name a voice-FX write. */
  function FxRequest(name: string, value: real): (p: Fields)
    ensures name == "mic_volume" ==> p.Keys == {"action", "value"}
    ensures name != "mic_volume" ==> p.Keys == {"action", "fx_name", "value"}
    ensures name == "mic_volume" ==> Get(p, "action") == Some(Str("set_mic_volume")) && Get(p, "value") == Some(Num(value))
    ensures name != "mic_volume" ==>
      Get(p, "action") == Some(Str("set_voice_fx")) && Get(p, "fx_name") == Some(Str(name)) && Get(p, "value") == Some(Num(value))
  {
    if name == "mic_volume" then map["action" := Str("set_mic_volume"), "value" := Num(value)]
    else map["action" := Str("set_voice_fx"), "fx_name" := Str(name), "value" := Num(value)]
  }

  /** `media_control`: the key name, for the keystroke injector. */
  function MediaRequest(key: string): (p: Fields)
    ensures p.Keys == {"action", "key"}
    ensures Get(p, "action") == Some(Str("media_control")) && Get(p, "key") == Some(Str(key))
  {
    map["action" := Str("media_control"), "key" := Str(key)]
  }

  /** `stream_deck_action`: the executable to launch. */
  function DeckActionRequest(executable: string): (p: Fields)
    ensures p.Keys == {"action", "executable"}
    ensures Get(p, "action") == Some(Str("run_stream_deck_action")) && Get(p, "executable") == Some(Str(executable))
  {
    map["action" := Str("run_stream_deck_action"), "executable" := Str(executable)]
  }

  // ---------------------------------------------------------------------------
  // Swipe to exit
  // ---------------------------------------------------------------------------

  /**
   * `_on_touch_up`: the app stops when the touch began (recorded `start_y`)
   * below y = 60 and rose by more than 150. Kivy's y axis points up.
   */
  function StopsApp(startY: Option<real>, endY: real): (stop: bool)
    ensures stop ==> startY.Some? && startY.value < 60.0 && endY > startY.value + 150.0
    ensures startY.Some? && startY.value < 60.0 && endY > startY.value + 150.0 ==> stop
  {
    startY.Some? && startY.value < 60.0 && endY - startY.value > 150.0
  }

  /** Only a long upward swipe from the bottom edge stops the app, and continuing it further still does. */
  lemma SwipeRule(startY: Option<real>, endY: real, higher: real)
    requires endY <= higher
    ensures StopsApp(startY, endY) ==> StopsApp(startY, higher)
    ensures startY.None? || startY.value >= 60.0 || endY <= startY.value + 150.0 ==> !StopsApp(startY, endY)
    ensures startY.Some? && startY.value < 60.0 ==> (StopsApp(startY, endY) <==> endY > startY.value + 150.0)
  {
  }
}

=== FILE: snapshot.dfy ===
/**
 * The aggregate state document the server returns for a state query and the
 * client polls: every field may be absent, because the server fills it step
 * by step and stops at the first failure.
 */
module Snapshot {
  import opened Wrappers
  import opened FxStore

  datatype Master = Master(level: Option<real>, muted: Option<bool>)

  datatype GroupState = GroupState(level: Option<real>, muted: Option<bool>)

  datatype Audio = Audio(master: Option<Master>, groups: Option<seq<GroupState>>)

  datatype Voice = Voice(micMute: Option<bool>, micLevel: Option<real>, activePreset: Option<int>, fx: Option<FxMap>)

  datatype State = State(audio: Option<Audio>, voice: Option<Voice>)
}

=== FILE: voice_fx.dfy ===
/**
 * The voice-FX processor's per-block callback: it reads the state file and
 * maps the three parameters onto the fixed effect chain
 * reverb -> delay -> pitch shift. The signal processing itself is external.
 */
module VoiceFx {
  import opened FxStore

  /** The adjustable setting of each effect unit the callback writes. */
  datatype Unit =
    | Reverb(roomSize: real)
    | Delay(delaySeconds: real, mix: real)
    | PitchShift(semitones: real)

  /** The chain as it is first built, before any block has been processed. */
  const InitialBoard: seq<Unit> := [Reverb(0.1), Delay(0.0, 0.0), PitchShift(0.0)]

  /** The chain shape: reverb first, then delay, then pitch shift. */
  predicate IsChain(board: seq<Unit>)
  {
    |board| == 3 && board[0].Reverb? && board[1].Delay? && board[2].PitchShift?
  }

  /** Echo delay in seconds: half the `echo` parameter. */
  function DelaySeconds(echo: real): (seconds: real)
    ensures seconds * 2.0 == echo
  {
    echo * 0.5
  }

  /** The echo gate: fully wet strictly above 0.05, dry otherwise. */
  function EchoMix(echo: real): (mix: real)
    ensures mix == 1.0 <==> echo > 0.05
    ensures mix == 0.0 <==> echo <= 0.05
  {
    if echo > 0.05 then 1.0 else 0.0
  }

  /** Pitch parameter to semitones: 0.5 is neutral, one unit spans 24 semitones. */
  function Semitones(pitch: real): (semitones: real)
    ensures PitchOf(semitones) == pitch
  {
    (pitch - 0.5) * 24.0
  }

  /** The parameter a semitone offset came from, the inverse of `Semitones`. */
  function PitchOf(semitones: real): real
  {
    semitones / 24.0 + 0.5
  }

  /** The parameters the callback sees: the decoded file, or the empty map when it is missing or undecodable. */
  function ReadState(f: FxFile): (fx: FxMap)
    ensures f.Stored? ==> fx == f.values
    ensures !f.Stored? ==> fx == map[]
  {
    Contents(f)
  }

  /**
   * One callback: every unit setting is recomputed from this block's read of
   * the file alone, with defaults reverb 0, echo 0, pitch 0.5.
   */
  function Callback(board: seq<Unit>, f: FxFile): (board': seq<Unit>)
    requires IsChain(board)
    ensures IsChain(board')
    ensures var fx := ReadState(f);
      && board'[0].roomSize == Lookup(fx, "reverb", 0.0)
      && board'[1].delaySeconds * 2.0 == Lookup(fx, "echo", 0.0)
      && (board'[1].mix == 1.0 <==> Lookup(fx, "echo", 0.0) > 0.05)
      && (board'[1].mix == 0.0 <==> Lookup(fx, "echo", 0.0) <= 0.05)
      && PitchOf(board'[2].semitones) == Lookup(fx, "pitch", 0.5)
  {
    var fx := ReadState(f);
    var echo := Lookup(fx, "echo", 0.0);
    [Reverb(Lookup(fx, "reverb", 0.0)), Delay(DelaySeconds(echo), EchoMix(echo)), PitchShift(Semitones(Lookup(fx, "pitch", 0.5)))]
  }

  /** The pitch mapping and its inverse undo each other. */
  lemma PitchRoundTrip(pitch: real, semitones: real)
    ensures PitchOf(Semitones(pitch)) == pitch
    ensures Semitones(PitchOf(semitones)) == semitones
  {
  }

  /** Pitch 0, 0.5 and 1 give -12, 0 and +12 semitones; the map is monotone and keeps [0, 1] inside [-12, 12]. */
  lemma PitchRange(pitch: real, higher: real)
    requires pitch <= higher
    ensures Semitones(0.0) == -12.0 && Semitones(0.5) == 0.0 && Semitones(1.0) == 12.0
    ensures Semitones(pitch) <= Semitones(higher)
    ensures 0.0 <= pitch <= 1.0 ==> -12.0 <= Semitones(pitch) <= 12.0
  {
  }

  /** The echo gate is a step: only 0 or 1, the boundary 0.05 itself is dry, and it never switches off as echo grows. */
  lemma EchoGateStep(echo: real, more: real)
    requires echo <= more
    ensures EchoMix(echo) == 0.0 || EchoMix(echo) == 1.0
    ensures EchoMix(0.05) == 0.0 && EchoMix(0.0501) == 1.0
    ensures EchoMix(echo) <= EchoMix(more)
    ensures DelaySeconds(0.2) == 0.1
  {
  }

  /** The callback consults no earlier state: two boards fed the same file end up identical. */
  lemma CallbackForgetsHistory(b1: seq<Unit>, b2: seq<Unit>, f: FxFile)
    requires IsChain(b1) && IsChain(b2)
    ensures Callback(b1, f) == Callback(b2, f)
  {
  }

  /**
   * A missing or undecodable file resets every unit to its default, room 0,
   * no echo, neutral pitch, whatever the board held before; in particular
   * the initial room size 0.1 is not kept.
   */
  lemma UnreadableStateResetsDefaults(board: seq<Unit>, f: FxFile)
    requires IsChain(board)
    requires !f.Stored?
    ensures Callback(board, f) == [Reverb(0.0), Delay(0.0, 0.0), PitchShift(0.0)]
    ensures Callback(InitialBoard, f) != InitialBoard
  {
  }
}

=== FILE: wrappers.dfy ===
/** The optional-value datatype used for absent dictionary keys and failed conversions. */
module Wrappers {

  /** `None` stands for a missing key (Python's `dict.get` returning `None`) or a failed conversion. */
  datatype Option<+T> = None | Some(value: T) {

    /** The value if present, otherwise `default` (Python's `d.get(key, default)`). */
    function GetOr(default: T): T {
      match this
      case Some(v) => v
      case None => default
    }
  }
}
